=== FILE: README.md ===
# Lucid observers: registry, hook dispatch and after-commit deferral

A Dafny model of the core of an AdonisJS Lucid add-on that attaches observers to
model classes. The `Observable` mixin keeps, for each model class, an ordered list of
global observers and an ordered list of the model's own observers. It has an
`isObserved` flag and installs one hook callback per lifecycle slot:
{before, after} × {fetch, find, create, update, delete, save, paginate}. When the
persistence layer reaches a slot, the callback walks the global observers and then the
local ones. Each observer that implements the slot's method (`beforeCreate`,
`afterFetch`, …) is called with the hook's payload, and an `observer:<method>` event is
emitted after the call. An observer with `afterCommit` set may find a transaction in the
payload. In that case the call and its emission are registered to run when that
transaction commits. The provider adds a global list on the base model. Two exceptions
report a second `observe` and an observer that is not an instance.

Modules, one per concern:

- `Js` (`js.dfy`): the JavaScript values an observer list can hold, `typeof`,
  interpolation and `new`.
- `Hooks` (`hooks.dfy`): slots, method names, and the order in which `observe`
  installs the hooks.
- `Exceptions` (`exceptions.dfy`): `ModelAlreadyObservedException` and
  `ObserverTypeException`, plus the other failures.
- `Payloads` (`payloads.dfy`): the payload union for each hook and the transaction
  lookup.
- `Transactions` (`transactions.dfy`): calls, notifications, the effect trace, and
  transactions with pending commit callbacks.
- `Dispatch` (`dispatch.dfy`): `executeObserverMethod` and the walk over an observer
  list.
- `Observable` (`observable.dfy`): the registry record, registration, `observe`, hook
  firing, `withoutObservers` and `saveQuietly`.
- `Provider` (`provider.dfy`): `boot()` and the global-observer functions.

State is an immutable `Registry` record with these fields: model name, globals,
locals, `isObserved`, and the set of installed slots. Effects are a trace of three kinds
of entry:

- `Invoked(call)`: an observer method was called.
- `Emitted(notification)`: an `observer:<method>` event was emitted.
- `Deferred(trx, call)`: a call was registered with `trx.after('commit', …)`.

Errors are values (`Failure`) and are never preconditions. Calls into code outside the
core are parameters of the model:

- An observer method is represented by its name. The class says whether that method
  throws.
- The query run by `save` is represented by a `queryFails` flag. Whether the row is
  already persisted and whether it has dirty fields are the `persisted` and `dirty` flags.
- A `withoutObservers` callback is a function from registry to completion.

## Model

| member | source | states |
|---|---|---|
| `Hooks.MethodName` | src/Mixins/Observable.ts:145 | The method a slot dispatches to is the phase word followed by the event name with its first letter upper-cased. |
| `Hooks.MethodNames` | src/Mixins/Observable.ts:113-145 | The fourteen slots dispatch to `beforeFetch` … `afterPaginate`, the method names of the observer contract. |
| `Hooks.SlotOfMethodName` | src/Mixins/Observable.ts:145 | The method name of a slot is the phase followed by the PascalCase event name, and reading that name back with the contract's literal method names gives the slot. |
| `Hooks.PascalCaseIsWord` | src/Mixins/Observable.ts:145 | PascalCase of each lower-case event name is that name with its first letter upper-cased, the spelling used in the observer method names. |
| `Hooks.MethodNameInjective` | src/Mixins/Observable.ts:145 | Distinct slots dispatch to distinct observer methods. |
| `Hooks.InstallOrderIsComplete` | src/Mixins/Observable.ts:113-129 | The nested before/after × event loop visits 14 pairwise distinct slots, and those slots cover every (phase, kind) pair. |
| `Exceptions.ModelAlreadyObserved` | src/Exceptions/ModelAlreadyObservedException.ts:4-5 | The status is 500, the code is `E_MODEL_ALREADY_OBSERVED`, and the message has the form `The model "` + name + `" is already observed`, from which the model name can be read back. |
| `Exceptions.AlreadyObservedMessageInjective` | src/Exceptions/ModelAlreadyObservedException.ts:4-5 | Two already-observed messages are equal exactly when the model names are equal. |
| `Exceptions.WrongObserverType` | src/Exceptions/ObserverTypeException.ts:4-11 | The status is 500 and the code is `E_WRONG_OBSERVER_TYPE`. |
| `Exceptions.WrongTypeQuotesClassName` | src/Exceptions/ObserverTypeException.ts:6-8 | For a class value, the message quotes the class's `name` and gives `function` as its type. |
| `Exceptions.WrongTypeQuotesValue` | src/Exceptions/ObserverTypeException.ts:6-8 | For any other value, the message quotes the interpolated value, followed by its `typeof`. |
| `Exceptions.WrongTypeNamesModel` | src/Exceptions/ObserverTypeException.ts:8 | The message ends with ` given in model "<model>"`, directly after the quoted value and its type, with nothing between. For a fixed offending value, distinct models give distinct messages. |
| `Payloads.FromBuilder` | src/Mixins/Observable.ts:244-252 | A builder yields a transaction exactly when its client is set and is a transaction client, and the result is that client. |
| `Payloads.TransactionOf` | src/Mixins/Observable.ts:166-193 | The lookup fails only for `afterFetch` with no rows, where it reads `$trx` of undefined. `afterPaginate` never yields a transaction. |
| `Payloads.FitsIffShaped` | adonis-typings/observer-events.ts:12-20 | The payload shape expected for each method name is the per-slot table: a builder, a pair of builders, rows, a paginator, or one row. |
| `Payloads.TransactionOfFollowsShape` | src/Mixins/Observable.ts:166-193 | For every slot and well-shaped payload, branching on the method name finds the same transaction as reading the payload by its shape: the first builder of the pair, the first row, the row itself, and never the paginator. |
| `Transactions.Emit` | src/Mixins/Observable.ts:221-233 | The event is named `observer:` + method (the method can be read back from the name). It carries the method as `type`, the payload as `data`, the observer class name and the given `isTransaction` flag. |
| `Transactions.EventNameInjective` | src/Mixins/Observable.ts:227 | Notifications for different methods are emitted under different event names. |
| `Transactions.Perform` | src/Mixins/Observable.ts:206-216 | An immediate call logs exactly one invocation of that call. It fails exactly when the method throws. When it returns, its notification follows it. |
| `Transactions.AfterCommit` | src/Mixins/Observable.ts:196 | `trx.after('commit', …)` appends the call at the end of the transaction's pending callbacks and keeps the earlier ones in place. |
| `Transactions.Schedule` | src/Mixins/Observable.ts:195-200 | Registering a trace's deferrals appends, in order, exactly the calls deferred to that transaction. |
| `Transactions.CommitRunsPendingInOrder` | src/Mixins/Observable.ts:196-200 | Commit invokes exactly the pending calls, in registration order. Every notification it emits is flagged transactional, and there is one notification per call that returns. When no call throws, each call is followed by its own notification. |
| `Transactions.Rollback` | src/Mixins/Observable.ts:195-200 | After a rollback, a commit runs nothing. |
| `Dispatch.Execute` | src/Mixins/Observable.ts:152-219 | An observer without the method does nothing, and fails only if it is `null` or `undefined`. When an observer with the method completes its step, the step handled exactly the call `Call(cls, method, payload)`, made now or deferred to the transaction. A call made now is followed by its non-transactional notification. An `afterCommit` observer's `afterFetch` on an empty row list fails reading `$trx` and calls nothing. |
| `Dispatch.DispatchHandlesImplementers` | src/Mixins/Observable.ts:145-149 | `DispatchAll`, the walk over a list: when it completes, it has called or deferred exactly the observers implementing the method, each once and in list order, each with the call `Call(c, method, payload)`. Each immediate call is paired with its notification. |
| `Dispatch.DispatchFailsAtFirstFailure` | src/Mixins/Observable.ts:147-149 | The walk completes if and only if no observer's step fails. Otherwise it stops with the failure of the first failing observer. |
| `Dispatch.DispatchConcat` | src/Mixins/Observable.ts:147 | Walking globals ++ locals walks the globals first and then, if nothing failed, the locals. |
| `Dispatch.DeferredCommitMatchesImmediate` | src/Mixins/Observable.ts:166-217 | Without `afterCommit`, or with no transaction found, the call runs now with `isTransaction = false`. With a transaction, nothing runs now. On commit, the method runs and is then emitted with `isTransaction = true`; on rollback, neither happens. |
| `Observable.Define` | src/Mixins/Observable.ts:28-40 | A newly defined model keeps its name, is not observed and has no hooks. Its global list is exactly the given globals, `$getObservers()` is exactly the declared `$observers`, and `$getAllObservers()` is the globals followed by them. |
| `Observable.AddObserver` | src/Mixins/Observable.ts:45-47 | One new instance is appended at the end of the locals, and nothing else changes. |
| `Observable.AddObservers` | src/Mixins/Observable.ts:52-54 | One instance per class is appended to the locals, in the given order, and nothing else changes. |
| `Observable.AddObserversIsAddEach` | src/Mixins/Observable.ts:45-54 | Adding a list of observers is the same as adding them one by one, in order. |
| `Observable.GetAllObservers` | src/Mixins/Observable.ts:66-68 | All observers are the globals, followed by the model's own observers. |
| `Observable.FirstNonObject` | src/Mixins/Observable.ts:132-138 | Returns nothing if and only if every value is an object. Otherwise it returns a non-object value, and every value before it is an object. |
| `Observable.CheckObserversTypes` | src/Mixins/Observable.ts:132-138 | Passes if and only if every observer, globals first, has `typeof` "object". Otherwise it raises the wrong-type error for the first one that does not. |
| `Observable.Observe` | src/Mixins/Observable.ts:104-130 | On an observed model it raises already-observed and changes nothing. Otherwise it sets the flag and appends the instances. It fails if and only if some observer is not an object, and the flag and the appended observers remain on failure. It installs every slot exactly when the check passes. |
| `Observable.ObserveTwiceFails` | src/Mixins/Observable.ts:104-107 | A second `observe` always fails with the already-observed error naming the model, and leaves the state from the first call unchanged. |
| `Observable.DeclaredClassFailsObserve` | tests/observable.spec.ts:71-92 | A class declared in `$observers` makes `observe` raise the wrong-type error for it. The model remains flagged as observed and no hooks are installed. |
| `Observable.FailedObserveInstallsNothing` | src/Mixins/Observable.ts:109-111 | After a failed `observe`, no hook runs an observer, and a further `observe` only reports already-observed. |
| `Observable.ObserveInstallsAllHooks` | src/Mixins/Observable.ts:113-129 | A successful `observe` installs exactly 14 hooks, one for every slot. |
| `Observable.Walk` | src/Mixins/Observable.ts:147-149 | The awaited loop over the observers computes the same run as the walk that stops at the first failure. |
| `Observable.RegisterHookCallback` | src/Mixins/Observable.ts:140-150 | The loop gives the same result as the walk over globals ++ locals. When it completes, it has handled the global implementers followed by the local implementers, each with the call `Call(c, method, payload)`. |
| `Observable.Fire` | src/Mixins/Observable.ts:125-127 | A slot with no installed hook runs nothing. An installed hook is exactly the walk over globals ++ locals, so it stops at and reports the first observer failure. An installed hook that completes has called or deferred (to the payload's transaction) exactly the implementers among all observers, each once and in order, each with the hook's payload. |
| `Observable.FireFailsAtFirstFailure` | src/Mixins/Observable.ts:125-127 | An installed hook completes if and only if every observer's step completes, globals first. Otherwise it fails with the failure of the first failing observer, and every observer before that one completed its step. |
| `Observable.UnobservedRunsNothing` | src/Mixins/Observable.ts:123-129 | Before `observe`, firing any slot runs no observer method. |
| `Observable.ObservedDispatchesImplementers` | src/Mixins/Observable.ts:123-129 | After a successful `observe`, every slot that completes has called or deferred (to the payload's transaction) exactly the implementers among the globals and then among the locals, each with the call `Call(c, method, payload)`. |
| `Observable.WithoutObservers` | src/Mixins/Observable.ts:74-99 | The callback runs with both lists emptied. On success the lists are restored and the callback's result is returned. On failure the failure is re-raised wrapped and the lists stay as the callback left them. |
| `Observable.SaveQuietly` | src/Mixins/Observable.ts:238-242 | A quiet save runs no observer method. It succeeds exactly when no query is needed or the query goes through, and then returns the row with the registry unchanged. Otherwise it fails with the wrapped query error and leaves no observers. Only the two lists change: the name, the `isObserved` flag and the installed hooks stay as they were. |
| `Observable.SaveQuietlyIsSilent` | src/Mixins/Observable.ts:238-242 | `saveQuietly` runs no observer method, global or local. A save that goes through returns the row and leaves the registry unchanged, so a later plain save fires the observers again. |
| `Observable.SaveQuietlyFailureDropsObservers` | src/Mixins/Observable.ts:86-96 | As written, when the save needs a query (a new row, or a persisted row with dirty fields) and the query fails inside `saveQuietly`, the error is re-raised wrapped and the model is left with no observers at all. It stays observed with all its hooks, so a later `observe` only reports already-observed. |
| `Observable.SaveQuietlyFailureExample` | src/Mixins/Observable.ts:86-96 | A concrete case: a model observed with one observer has an empty observer list after a failed quiet save. |
| `Observable.WithoutObserversGuarded` | src/Mixins/Observable.ts:70-73 | With the restoration in a `finally`, both lists are restored whatever the callback does. |
| `Observable.SaveQuietlyGuardedRestores` | src/Mixins/Observable.ts:238-242 | With the guarded version, a quiet save runs no observer and leaves the registry unchanged. It fails exactly when the save needs a query and the query fails. |
| `Provider.Boot` | providers/LucidObserverProvider.ts:20-22 | After boot the global list is empty. Nothing else changes. |
| `Provider.AddGlobalObserver` | providers/LucidObserverProvider.ts:24-26 | Exactly one new instance is appended at the end of the global list, and nothing else changes. |
| `Provider.AddGlobalObservers` | providers/LucidObserverProvider.ts:28-30 | One instance per class is appended to the global list, in the given order, and nothing else changes. |
| `Provider.AddGlobalObserversIsAddEach` | providers/LucidObserverProvider.ts:24-30 | Adding a list of global observers is the same as adding them one by one, in order. |
| `Provider.ListsAreSeparate` | providers/LucidObserverProvider.ts:32-34 | A model's own additions leave the global list unchanged, and global additions leave the model's list unchanged. |
| `Provider.RegistrationOrder` | src/Mixins/Observable.ts:45-68 | After any interleaving of global and local registrations, the globals come first and then the locals, each group in call order. |
| `Provider.GlobalsAfterBoot` | providers/LucidObserverProvider.ts:20-34 | After `boot()` and any interleaving of registrations, `$getGlobalObservers()` returns exactly the global registrations in call order, unaffected by the model's own, each a new instance. |
| `Provider.BootThenObserve` | tests/observable.spec.ts:1104-1126 | After boot, one global observer, and `observe` with one local observer: the model lists one observer of its own, one global observer, and two observers in all. |

## Left out

- Asynchrony: every `await` is treated as completing before the next step runs.
- The ORM itself is not modelled: the query builder, the paginator and the event bus. A
  builder is its client, a row is its key and `$trx`, and emitting a notification
  appends it to the trace.
- The persistence effects of `save`, `create` and `find` are not modelled. The host's
  `BaseModel.save` is not part of this model. `SaveRow` assumes its hook order:
  `beforeCreate` (or `beforeUpdate` for a persisted row), then `beforeSave`. A persisted
  row with no dirty fields stops there. Otherwise the query runs, followed by
  `afterCreate` (or `afterUpdate`) and then `afterSave`. A rejected query is a flag.
- Static inheritance between model classes is not modelled. In the source, the mixin's
  `globalObservers` captures the base model's array when the class is defined, and the
  test teardown later replaces that array. The model instead keeps one global sequence
  in the registry, which all the registry's operations share. `withoutObservers`
  empties that sequence, and the model cannot show a global list that differs between
  model classes. In the source, `$getGlobalObservers()` reads the provider's
  `$globalObservers` on the base model (providers/LucidObserverProvider.ts:32-34),
  while `withoutObservers` reassigns only the class's own `globalObservers`
  (src/Mixins/Observable.ts:83, 96). So after a failed quiet save the source still
  reports the global observers from `$getGlobalObservers()`, whereas the model's
  `GetGlobalObservers` returns the emptied sequence.
- Only some JavaScript values are modelled. Numbers, symbols and bigints cannot appear
  in an observer list here. An instance interpolates as `[object Object]`, as if it had
  no custom `toString`. A class value carries no static observer methods.
- What happens when an observer method throws at commit time is simplified. In the
  source, the listeners are registered on a Node event emitter, so such a rejection is
  unhandled. The model only records that the method ran and that no notification
  followed. The other commit callbacks still run.
- Commit callbacks are modelled as running one after another, each to completion. The
  Node event emitter does not await async listeners, so in the source a later callback
  can start before an earlier callback's notification has been emitted.
- A failing `Event.emit` is not modelled.
- The error text of a JavaScript TypeError is not modelled. `PropertyOfNothing` records
  only the property that was read.
- `Payloads.TransactionOf` requires the payload shape that the persistence layer passes
  with each method (`Payloads.Fits`). Calling it with a mismatched shape is outside the
  typed contract of the hooks and is not modelled.

## Findings

| source | as written | input that shows it | evidently intended | confidence | as-written member | corrected member |
|---|---|---|---|---|---|---|
| src/Mixins/Observable.ts:86-96 | If the callback throws, `withoutObservers` re-raises the error before the lines that restore the global and local observer lists, so both lists stay empty. | A model observed with one observer calls `saveQuietly`, and the insert is rejected (`SaveQuietlyFailureExample`). Afterwards, `$getAllObservers()` is empty and no later save triggers any observer. | The comment says the observers are removed and then restored. The lists should be restored on every exit, as with a `finally` block. | not executed | `Observable.SaveQuietlyFailureDropsObservers` | `Observable.SaveQuietlyGuardedRestores` |

`Observable.SaveQuietly` follows the source as written. `Observable.SaveQuietlyGuarded`
uses `WithoutObserversGuarded`, the version with the restoration in a `finally` block.

=== FILE: dispatch.dfy ===
/** What one hook firing does to an observer list: every observer that
    implements the slot's method is called now or deferred to the payload's
    transaction, in list order, and the first failure stops the walk. */
module Dispatch {
  import opened Wrappers
  import opened Js
  import opened Exceptions
  import opened Payloads
  import opened Transactions

  /** The classes of the observers in `obs` that implement `methodName`, in
      list order. */
  function Implementers(obs: seq<Value>, methodName: string): seq<ObserverClass> {
    if |obs| == 0 then []
    else (if HasMethod(obs[0], methodName) then [obs[0].cls] else []) + Implementers(obs[1..], methodName)
  }

  /** The call `executeObserverMethod` makes on each of `cs`. */
  function CallsTo(cs: seq<ObserverClass>, methodName: string, arg: Payload): (calls: seq<Call>)
    ensures |calls| == |cs|
    ensures forall i :: 0 <= i < |cs| ==> calls[i] == Call(cs[i], methodName, arg)
  {
    seq(|cs|, i requires 0 <= i < |cs| => Call(cs[i], methodName, arg))
  }

  /** `run` preceded by what was logged before it. */
  function Then(prefix: seq<Effect>, run: Run): Run {
    Run(prefix + run.trace, run.failure)
  }

  /** `executeObserverMethod(observer, methodName, arg)`. */
  function Execute(o: Value, methodName: string, arg: Payload): (r: Run)
    requires Fits(methodName, arg)
    ensures !HasMethod(o, methodName) ==> r.trace == [] && (r.failure.Some? <==> IsNullish(o))
    ensures HasMethod(o, methodName) && r.failure.None? ==> Handled(r.trace) == [o.cls]
    ensures HasMethod(o, methodName) && r.failure.None? ==>
      HandledCalls(r.trace) == [Call(o.cls, methodName, arg)]
    ensures HasMethod(o, methodName) && o.cls.afterCommit && TransactionOf(methodName, arg).Failure? ==>
      r == Run([], Some(PropertyOfNothing("$trx")))
    ensures r.failure.None? ==> Paired(r.trace, false)
  {
    match o
    case Null => Run([], Some(PropertyOfNothing(methodName)))
    case Undefined => Run([], Some(PropertyOfNothing(methodName)))
    case Instance(c) =>
      var call := Call(c, methodName, arg);
      if methodName !in c.methods then Run([], None)
      else if !c.afterCommit then Perform(call, false)
      else
        (match TransactionOf(methodName, arg)
         case Failure(e) => Run([], Some(e))
         case Success(Some(t)) =>
           var trace := [Deferred(t, call)];
           assert HandledCalls(trace) == [call] + HandledCalls(trace[1..]);
           assert ObserversOf([call]) == [c];
           Run(trace, None)
         case Success(None) => Perform(call, false))
    case _ => Run([], None)
  }

  /** The loop of `registerHookCallback` over `obs`, one awaited call after
      another. */
  function DispatchAll(obs: seq<Value>, methodName: string, arg: Payload): Run
    requires Fits(methodName, arg)
    decreases |obs|
  {
    if |obs| == 0 then Run([], None)
    else
      var step := Execute(obs[0], methodName, arg);
      if step.failure.Some? then step
      else Then(step.trace, DispatchAll(obs[1..], methodName, arg))
  }

  /** One more step of the walk, after `prefix` was logged for the
      observers before `i`. */
  lemma DispatchStep(obs: seq<Value>, i: nat, prefix: seq<Effect>, methodName: string, arg: Payload)
    requires Fits(methodName, arg) && i < |obs|
    ensures var step := Execute(obs[i], methodName, arg);
      Then(prefix, DispatchAll(obs[i..], methodName, arg))
      == if step.failure.Some? then Run(prefix + step.trace, step.failure)
         else Then(prefix + step.trace, DispatchAll(obs[i + 1..], methodName, arg))
  {
    var step := Execute(obs[i], methodName, arg);
    var rest := DispatchAll(obs[i + 1..], methodName, arg);
    assert obs[i..][0] == obs[i] && obs[i..][1..] == obs[i + 1..];
    if step.failure.None? {
      assert (prefix + step.trace) + rest.trace == prefix + (step.trace + rest.trace);
    }
  }

  /** A walk that completes has called or deferred exactly the observers
      implementing the method, each once and in list order, and each
      immediate call is followed by its non-transactional notification. */
  lemma {:induction false} DispatchHandlesImplementers(obs: seq<Value>, methodName: string, arg: Payload)
    requires Fits(methodName, arg)
    requires DispatchAll(obs, methodName, arg).failure.None?
    ensures Handled(DispatchAll(obs, methodName, arg).trace) == Implementers(obs, methodName)
    ensures HandledCalls(DispatchAll(obs, methodName, arg).trace)
         == CallsTo(Implementers(obs, methodName), methodName, arg)
    ensures Paired(DispatchAll(obs, methodName, arg).trace, false)
    decreases |obs|
  {
    if |obs| > 0 {
      var step := Execute(obs[0], methodName, arg);
      var rest := DispatchAll(obs[1..], methodName, arg);
      DispatchHandlesImplementers(obs[1..], methodName, arg);
      HandledDistributes(step.trace, rest.trace);
      PairedConcat(step.trace, rest.trace, false);
    }
    DispatchCallsImplementers(obs, methodName, arg);
  }

  lemma {:induction false} DispatchCallsImplementers(obs: seq<Value>, methodName: string, arg: Payload)
    requires Fits(methodName, arg)
    requires DispatchAll(obs, methodName, arg).failure.None?
    ensures HandledCalls(DispatchAll(obs, methodName, arg).trace)
         == CallsTo(Implementers(obs, methodName), methodName, arg)
    decreases |obs|
  {
    if |obs| > 0 {
      var step := Execute(obs[0], methodName, arg);
      var rest := DispatchAll(obs[1..], methodName, arg);
      assert DispatchAll(obs, methodName, arg).trace == step.trace + rest.trace;
      DispatchCallsImplementers(obs[1..], methodName, arg);
      HandledDistributes(step.trace, rest.trace);
      var head := if HasMethod(obs[0], methodName) then [obs[0].cls] else [];
      assert Implementers(obs, methodName) == head + Implementers(obs[1..], methodName);
      CallsToDistributes(head, Implementers(obs[1..], methodName), methodName, arg);
      assert HandledCalls(step.trace) == CallsTo(head, methodName, arg);
    }
  }

  lemma CallsToDistributes(a: seq<ObserverClass>, b: seq<ObserverClass>, methodName: string, arg: Payload)
    ensures CallsTo(a + b, methodName, arg) == CallsTo(a, methodName, arg) + CallsTo(b, methodName, arg)
  {
  }

  /** The walk completes iff no observer's step fails; otherwise it stops
      with the failure of the first observer whose step fails. */
  lemma {:induction false} DispatchFailsAtFirstFailure(obs: seq<Value>, methodName: string, arg: Payload)
    requires Fits(methodName, arg)
    ensures DispatchAll(obs, methodName, arg).failure.None?
        <==> forall i :: 0 <= i < |obs| ==> Execute(obs[i], methodName, arg).failure.None?
    ensures DispatchAll(obs, methodName, arg).failure.Some? ==>
      exists i :: 0 <= i < |obs|
        && DispatchAll(obs, methodName, arg).failure == Execute(obs[i], methodName, arg).failure
        && forall j :: 0 <= j < i ==> Execute(obs[j], methodName, arg).failure.None?
    decreases |obs|
  {
    if |obs| > 0 {
      DispatchFailsAtFirstFailure(obs[1..], methodName, arg);
      var r := DispatchAll(obs, methodName, arg);
      if Execute(obs[0], methodName, arg).failure.None? {
        if r.failure.Some? {
          var k :| 0 <= k < |obs[1..]|
            && r.failure == Execute(obs[1..][k], methodName, arg).failure
            && forall j :: 0 <= j < k ==> Execute(obs[1..][j], methodName, arg).failure.None?;
          assert r.failure == Execute(obs[k + 1], methodName, arg).failure;
          forall j | 0 <= j < k + 1
            ensures Execute(obs[j], methodName, arg).failure.None?
          {
            if j > 0 {
              assert obs[j] == obs[1..][j - 1];
            }
          }
        } else {
          forall i | 0 <= i < |obs|
            ensures Execute(obs[i], methodName, arg).failure.None?
          {
            if i > 0 {
              assert obs[i] == obs[1..][i - 1];
            }
          }
        }
      }
    }
  }

  /** Walking `a + b` walks `a` and then, if nothing failed, `b`: this is
      how global observers run before local ones. */
  lemma {:induction false} DispatchConcat(a: seq<Value>, b: seq<Value>, methodName: string, arg: Payload)
    requires Fits(methodName, arg)
    ensures DispatchAll(a + b, methodName, arg) ==
      var first := DispatchAll(a, methodName, arg);
      if first.failure.Some? then first else Then(first.trace, DispatchAll(b, methodName, arg))
    decreases |a|
  {
    if |a| == 0 {
      assert a + b == b;
    } else {
      assert (a + b)[0] == a[0];
      assert (a + b)[1..] == a[1..] + b;
      DispatchConcat(a[1..], b, methodName, arg);
      var step := Execute(a[0], methodName, arg);
      if step.failure.None? {
        var first := DispatchAll(a[1..], methodName, arg);
        if first.failure.None? {
          var second := DispatchAll(b, methodName, arg);
          assert step.trace + (first.trace + second.trace) == (step.trace + first.trace) + second.trace;
        }
      }
    }
  }

  /** An observer without `afterCommit`, or one whose payload carries no
      transaction, runs at once and emits a non-transactional notification.
      For an after-commit observer, a found transaction turns the call into
      a deferral; committing that transaction then logs what running at
      once would have logged, except that the notification is flagged as
      transactional, and rolling it back logs nothing. */
  lemma DeferredCommitMatchesImmediate(c: ObserverClass, methodName: string, arg: Payload)
    requires Fits(methodName, arg)
    requires methodName in c.methods
    ensures !c.afterCommit || TransactionOf(methodName, arg) == Success(None) ==>
      Execute(Instance(c), methodName, arg) == Perform(Call(c, methodName, arg), false)
    ensures c.afterCommit && TransactionOf(methodName, arg).Success? && TransactionOf(methodName, arg).value.Some? ==>
      var t := TransactionOf(methodName, arg).value.value;
      var r := Execute(Instance(c), methodName, arg);
      && r == Run([Deferred(t, Call(c, methodName, arg))], None)
      && Commit(Schedule(Transaction(t, []), r.trace)) == Perform(Call(c, methodName, arg), true).trace
      && Commit(Rollback(Schedule(Transaction(t, []), r.trace))) == []
  {
    var call := Call(c, methodName, arg);
    match TransactionOf(methodName, arg)
    case Success(Some(t)) =>
      if c.afterCommit {
      var r := Execute(Instance(c), methodName, arg);
      assert DeferredTo(r.trace, t) == [call];
      var scheduled := Schedule(Transaction(t, []), r.trace);
      assert scheduled.pending == [call];
      assert Commit(scheduled) == Perform(call, true).trace + Commit(Transaction(t, []));
      }
    case _ =>
  }
}

=== FILE: exceptions.dfy ===
/** The two exceptions the registry raises, and the other ways an observer
    operation can fail. */
module Exceptions {
  import opened Wrappers
  import opened Js

  /** An `Exception` of `@poppinss/utils`: message, HTTP status and code. */
  datatype Exception = Exception(message: string, status: int, code: string)

  datatype Failure =
    | Raised(exception: Exception)
      /** A TypeError from reading `property` of `null` or `undefined`. */
    | PropertyOfNothing(property: string)
      /** An observer method that threw. */
    | Thrown(observer: string, methodName: string)
      /** The persistence layer rejected the query. */
    | QueryFailed
      /** `new Error(e)`: a failure re-raised by `withoutObservers`. */
    | Wrapped(cause: Failure)

  const AlreadyObservedCode: string := "E_MODEL_ALREADY_OBSERVED"
  const WrongObserverTypeCode: string := "E_WRONG_OBSERVER_TYPE"

  const AlreadyObservedHead: string := "The model \""
  const AlreadyObservedTail: string := "\" is already observed"

  /** `ModelAlreadyObservedException.invoke(model)`. */
  function ModelAlreadyObserved(model: string): (e: Exception)
    ensures e.status == 500 && e.code == AlreadyObservedCode
    ensures ObservedModelIn(e.message) == Some(model)
  {
    var message := AlreadyObservedHead + model + AlreadyObservedTail;
    assert message[..|AlreadyObservedHead|] == AlreadyObservedHead;
    assert message[|message| - |AlreadyObservedTail|..] == AlreadyObservedTail;
    assert message[|AlreadyObservedHead|..|message| - |AlreadyObservedTail|] == model;
    Exception(message, 500, AlreadyObservedCode)
  }

  /** The model name an already-observed message quotes, if the message has
      that shape. */
  function ObservedModelIn(message: string): Option<string> {
    var head, tail := |AlreadyObservedHead|, |AlreadyObservedTail|;
    if |message| >= head + tail
       && message[..head] == AlreadyObservedHead
       && message[|message| - tail..] == AlreadyObservedTail
    then Some(message[head..|message| - tail])
    else None
  }

  /** The already-observed message depends only on the model name, and
      distinct names give distinct messages. */
  lemma AlreadyObservedMessageInjective(a: string, b: string)
    ensures ModelAlreadyObserved(a).message == ModelAlreadyObserved(b).message <==> a == b
  {
    if ModelAlreadyObserved(a).message == ModelAlreadyObserved(b).message {
      assert ObservedModelIn(ModelAlreadyObserved(a).message) == Some(a);
      assert ObservedModelIn(ModelAlreadyObserved(b).message) == Some(b);
    }
  }

  /** How the wrong-type message quotes the offending value: a function by
      its `name`, anything else interpolated. */
  function Quoted(v: Value): string {
    if TypeOf(v) == "function" then v.cls.name else Interpolate(v)
  }

  const WrongTypeHead: string := "The observer \""
  const WrongTypeMiddle: string := "\" must be an instance, "
  const WrongTypeModel: string := " given in model \""

  /** `ObserverTypeException.invoke(observer, model)`. */
  function WrongObserverType(v: Value, model: string): (e: Exception)
    ensures e.status == 500 && e.code == WrongObserverTypeCode
  {
    Exception(
      WrongTypeHead + Quoted(v) + WrongTypeMiddle + TypeOf(v) + WrongTypeModel + model + "\"",
      500,
      WrongObserverTypeCode)
  }

  /** A class passed where an instance was expected is quoted by its name,
      and the message reports its type as "function". */
  lemma WrongTypeQuotesClassName(c: ObserverClass, model: string)
    ensures var m := WrongObserverType(Class(c), model).message;
      var quoted := WrongTypeHead + c.name + WrongTypeMiddle;
      && |m| > |quoted| + |"function"|
      && m[..|quoted|] == quoted
      && m[|quoted|..|quoted| + |"function"|] == "function"
  {
    var m := WrongObserverType(Class(c), model).message;
    var quoted := WrongTypeHead + c.name + WrongTypeMiddle;
    assert Quoted(Class(c)) == c.name && TypeOf(Class(c)) == "function";
    var rest := "function" + WrongTypeModel + model + "\"";
    assert m == quoted + rest;
    assert rest[..|"function"|] == "function";
  }

  /** Any other value is quoted through interpolation, followed by its
      `typeof`. */
  lemma WrongTypeQuotesValue(v: Value, model: string)
    requires !v.Class?
    ensures var m := WrongObserverType(v, model).message;
      var quoted := WrongTypeHead + Interpolate(v) + WrongTypeMiddle + TypeOf(v);
      && |m| > |quoted|
      && m[..|quoted|] == quoted
  {
    var m := WrongObserverType(v, model).message;
    var quoted := WrongTypeHead + Interpolate(v) + WrongTypeMiddle + TypeOf(v);
    assert m == quoted + (WrongTypeModel + model + "\"");
  }

  /** The message ends by naming the model, right after the quoted value
      and its type, and for one offending value distinct models give
      distinct messages. */
  lemma WrongTypeNamesModel(v: Value, model: string, other: string)
    ensures var m := WrongObserverType(v, model).message;
      var tail := WrongTypeModel + model + "\"";
      |m| > |tail| && m[|m| - |tail|..] == tail
    ensures var m := WrongObserverType(v, model).message;
      var quoted := WrongTypeHead + Quoted(v) + WrongTypeMiddle + TypeOf(v);
      var tail := WrongTypeModel + model + "\"";
      && |m| == |quoted| + |tail|
      && m[..|quoted|] == quoted
    ensures WrongObserverType(v, model).message == WrongObserverType(v, other).message <==> model == other
  {
    var head := WrongTypeHead + Quoted(v) + WrongTypeMiddle + TypeOf(v) + WrongTypeModel;
    var m := WrongObserverType(v, model).message;
    var n := WrongObserverType(v, other).message;
    assert m == head + model + "\"";
    assert n == head + other + "\"";
    var tail := WrongTypeModel + model + "\"";
    assert m == (WrongTypeHead + Quoted(v) + WrongTypeMiddle + TypeOf(v)) + tail;
    if m == n {
      assert model == m[|head|..|m| - 1];
      assert other == n[|head|..|n| - 1];
    }
  }
}

=== FILE: hooks.dfy ===
/** The fourteen lifecycle hook slots and the observer method name each one
    dispatches to. */
module Hooks {
  import opened Wrappers
  import opened Js

  datatype Phase = Before | After

  datatype Kind = Fetch | Find | Create | Update | Delete | Save | Paginate

  datatype Slot = Slot(phase: Phase, kind: Kind)

  const Phases: seq<Phase> := [Before, After]

  /** The event list `observe` walks, in its order. */
  const Kinds: seq<Kind> := [Fetch, Find, Create, Update, Delete, Save, Paginate]

  function PhaseName(p: Phase): string {
    match p
    case Before => "before"
    case After => "after"
  }

  function KindName(k: Kind): string {
    match k
    case Fetch => "fetch"
    case Find => "find"
    case Create => "create"
    case Update => "update"
    case Delete => "delete"
    case Save => "save"
    case Paginate => "paginate"
  }

  function Upper(c: char): char {
    if 'a' <= c <= 'z' then (c as int - 32) as char else c
  }

  /** `string.pascalCase` applied to a single lower-case word: its first
      letter is upper-cased and the rest is kept. */
  function PascalCase(word: string): (r: string)
    ensures |r| == |word|
    ensures |word| > 0 ==> r[1..] == word[1..]
    ensures |word| > 0 && 'a' <= word[0] <= 'z' ==> 'A' <= r[0] <= 'Z'
  {
    if |word| == 0 then word else [Upper(word[0])] + word[1..]
  }

  /** The observer method a slot dispatches to: the phase followed by the
      PascalCase event name. */
  function MethodName(slot: Slot): (name: string)
    ensures name == PhaseName(slot.phase) + Word(slot.kind)
  {
    PascalCaseIsWord(slot.kind);
    PhaseName(slot.phase) + PascalCase(KindName(slot.kind))
  }

  /** The order in which `observe` installs its hooks: every event for
      `before`, then every event for `after`. */
  function InstallOrder(): (order: seq<Slot>)
    ensures |order| == |Phases| * |Kinds|
    ensures forall i :: 0 <= i < |order| ==> order[i] == Slot(Phases[i / |Kinds|], Kinds[i % |Kinds|])
  {
    seq(|Phases| * |Kinds|, i requires 0 <= i < |Phases| * |Kinds| => Slot(Phases[i / |Kinds|], Kinds[i % |Kinds|]))
  }

  function AllSlots(): set<Slot> {
    set i | 0 <= i < |InstallOrder()| :: InstallOrder()[i]
  }

  /** Reads a method name back into its slot, from the literal method names
      of the observer contract. */
  function SlotOf(name: string): Option<Slot> {
    if |name| >= 6 && name[..6] == "before" then
      match KindOf(name[6..])
      case Some(k) => Some(Slot(Before, k))
      case None => None
    else if |name| >= 5 && name[..5] == "after" then
      match KindOf(name[5..])
      case Some(k) => Some(Slot(After, k))
      case None => None
    else None
  }

  /** The kind whose contract spelling is `word`, searched in event order. */
  function KindOf(word: string): Option<Kind> {
    FindKind(word, Kinds)
  }

  function FindKind(word: string, ks: seq<Kind>): Option<Kind> {
    if |ks| == 0 then None
    else if Word(ks[0]) == word then Some(ks[0])
    else FindKind(word, ks[1..])
  }

  /** Spells out the fourteen method names. */
  lemma MethodNames(slot: Slot)
    ensures slot == Slot(Before, Fetch) ==> MethodName(slot) == "beforeFetch"
    ensures slot == Slot(Before, Find) ==> MethodName(slot) == "beforeFind"
    ensures slot == Slot(Before, Create) ==> MethodName(slot) == "beforeCreate"
    ensures slot == Slot(Before, Update) ==> MethodName(slot) == "beforeUpdate"
    ensures slot == Slot(Before, Delete) ==> MethodName(slot) == "beforeDelete"
    ensures slot == Slot(Before, Save) ==> MethodName(slot) == "beforeSave"
    ensures slot == Slot(Before, Paginate) ==> MethodName(slot) == "beforePaginate"
    ensures slot == Slot(After, Fetch) ==> MethodName(slot) == "afterFetch"
    ensures slot == Slot(After, Find) ==> MethodName(slot) == "afterFind"
    ensures slot == Slot(After, Create) ==> MethodName(slot) == "afterCreate"
    ensures slot == Slot(After, Update) ==> MethodName(slot) == "afterUpdate"
    ensures slot == Slot(After, Delete) ==> MethodName(slot) == "afterDelete"
    ensures slot == Slot(After, Save) ==> MethodName(slot) == "afterSave"
    ensures slot == Slot(After, Paginate) ==> MethodName(slot) == "afterPaginate"
  {
    if slot.phase == Before {
      BeforeNames(slot.kind);
    } else {
      AfterNames(slot.kind);
    }
  }

  lemma BeforeNames(k: Kind)
    ensures k == Fetch ==> "before" + Word(k) == "beforeFetch"
    ensures k == Find ==> "before" + Word(k) == "beforeFind"
    ensures k == Create ==> "before" + Word(k) == "beforeCreate"
    ensures k == Update ==> "before" + Word(k) == "beforeUpdate"
    ensures k == Delete ==> "before" + Word(k) == "beforeDelete"
    ensures k == Save ==> "before" + Word(k) == "beforeSave"
    ensures k == Paginate ==> "before" + Word(k) == "beforePaginate"
  {
    match k
    case Fetch => assert "before" + "Fetch" == "beforeFetch";
    case Find => assert "before" + "Find" == "beforeFind";
    case Create => assert "before" + "Create" == "beforeCreate";
    case Update => assert "before" + "Update" == "beforeUpdate";
    case Delete => assert "before" + "Delete" == "beforeDelete";
    case Save => assert "before" + "Save" == "beforeSave";
    case Paginate => assert "before" + "Paginate" == "beforePaginate";
  }

  lemma AfterNames(k: Kind)
    ensures k == Fetch ==> "after" + Word(k) == "afterFetch"
    ensures k == Find ==> "after" + Word(k) == "afterFind"
    ensures k == Create ==> "after" + Word(k) == "afterCreate"
    ensures k == Update ==> "after" + Word(k) == "afterUpdate"
    ensures k == Delete ==> "after" + Word(k) == "afterDelete"
    ensures k == Save ==> "after" + Word(k) == "afterSave"
    ensures k == Paginate ==> "after" + Word(k) == "afterPaginate"
  {
    match k
    case Fetch => assert "after" + "Fetch" == "afterFetch";
    case Find => assert "after" + "Find" == "afterFind";
    case Create => assert "after" + "Create" == "afterCreate";
    case Update => assert "after" + "Update" == "afterUpdate";
    case Delete => assert "after" + "Delete" == "afterDelete";
    case Save => assert "after" + "Save" == "afterSave";
    case Paginate => assert "after" + "Paginate" == "afterPaginate";
  }

  /** The event names as the observer contract spells them. */
  function Word(k: Kind): string {
    match k
    case Fetch => "Fetch"
    case Find => "Find"
    case Create => "Create"
    case Update => "Update"
    case Delete => "Delete"
    case Save => "Save"
    case Paginate => "Paginate"
  }

  /** PascalCase turns each event name into the contract's spelling. */
  lemma PascalCaseIsWord(k: Kind)
    ensures PascalCase(KindName(k)) == Word(k)
  {
    match k
    case Fetch => assert PascalCase("fetch") == "Fetch";
    case Find => assert PascalCase("find") == "Find";
    case Create => assert PascalCase("create") == "Create";
    case Update => assert PascalCase("update") == "Update";
    case Delete => assert PascalCase("delete") == "Delete";
    case Save => assert PascalCase("save") == "Save";
    case Paginate => assert PascalCase("paginate") == "Paginate";
  }

  /** The contract's spelling of an event name reads back to its kind. */
  lemma KindOfPascalCase(k: Kind)
    ensures KindOf(PascalCase(KindName(k))) == Some(k)
  {
    PascalCaseIsWord(k);
    var i := match k
      case Fetch => 0 case Find => 1 case Create => 2 case Update => 3
      case Delete => 4 case Save => 5 case Paginate => 6;
    forall j | 0 <= j < i
      ensures Word(Kinds[j]) != Word(k)
    {
      if Word(Kinds[j]) == Word(k) {
        WordInjective(Kinds[j], k);
      }
    }
    FindKindFinds(Word(k), Kinds, i);
  }

  /** No two kinds share a spelling: length and first letter already
      tell them apart. */
  lemma WordInjective(a: Kind, b: Kind)
    requires Word(a) == Word(b)
    ensures a == b
  {
    assert |Word(a)| == |Word(b)| && Word(a)[0] == Word(b)[0];
  }

  lemma {:induction false} FindKindFinds(word: string, ks: seq<Kind>, i: nat)
    requires i < |ks| && Word(ks[i]) == word
    requires forall j :: 0 <= j < i ==> Word(ks[j]) != word
    ensures FindKind(word, ks) == Some(ks[i])
  {
    if i > 0 {
      FindKindFinds(word, ks[1..], i - 1);
    }
  }

  /** Reading back the method name of a slot gives the slot. */
  lemma SlotOfMethodName(slot: Slot)
    ensures SlotOf(MethodName(slot)) == Some(slot)
  {
    var word := PascalCase(KindName(slot.kind));
    var name := MethodName(slot);
    KindOfPascalCase(slot.kind);
    match slot.phase
    case Before =>
      assert name == "before" + word;
      assert name[..6] == "before" && name[6..] == word;
    case After =>
      assert name == "after" + word;
      assert name[..5] == "after" && name[5..] == word;
      assert name[0] == 'a';
      assert |name| >= 6 ==> name[..6] != "before" by {
        if |name| >= 6 {
          assert name[..6][0] == 'a';
        }
      }
  }

  /** Distinct slots dispatch to distinct methods. */
  lemma MethodNameInjective(a: Slot, b: Slot)
    requires MethodName(a) == MethodName(b)
    ensures a == b
  {
    SlotOfMethodName(a);
    SlotOfMethodName(b);
  }

  /** `observe` installs every slot, each exactly once: the install order has
      fourteen pairwise distinct entries covering all slots. */
  lemma InstallOrderIsComplete()
    ensures |InstallOrder()| == 14
    ensures forall i, j :: 0 <= i < j < |InstallOrder()| ==> InstallOrder()[i] != InstallOrder()[j]
    ensures forall slot: Slot :: slot in AllSlots()
    ensures |AllSlots()| == 14
  {
    var order := InstallOrder();
    forall i, j | 0 <= i < j < |order|
      ensures order[i] != order[j]
    {
      if i / 7 == j / 7 {
        assert i % 7 != j % 7;
      }
    }
    forall slot: Slot
      ensures slot in AllSlots()
    {
      var p := if slot.phase == Before then 0 else 1;
      var k := match slot.kind
        case Fetch => 0 case Find => 1 case Create => 2 case Update => 3
        case Delete => 4 case Save => 5 case Paginate => 6;
      assert order[p * 7 + k] == slot;
    }
    DistinctCardinality(order);
  }

  lemma {:induction false} DistinctCardinality(order: seq<Slot>)
    requires forall i, j :: 0 <= i < j < |order| ==> order[i] != order[j]
    ensures |set i | 0 <= i < |order| :: order[i]| == |order|
  {
    if |order| > 0 {
      var init := order[..|order| - 1];
      DistinctCardinality(init);
      var all := set i | 0 <= i < |order| :: order[i];
      var front := set i | 0 <= i < |init| :: init[i];
      assert all == front + {order[|order| - 1]};
      assert order[|order| - 1] !in front;
    }
  }
}

=== FILE: js.dfy ===
/** The JavaScript values the observer registry handles, reduced to what the
    mixin inspects: `typeof`, template-literal interpolation, `new C()` and
    whether a property holds a function. */
module Js {

  /** An observer class: the names of the methods its instances have, the
      subset of those whose body throws when called, and the value of its
      `afterCommit` property. */
  datatype ObserverClass = ObserverClass(
    name: string,
    methods: set<string>,
    throwing: set<string>,
    afterCommit: bool)

  /** A value that can sit in an observer list. Only `Instance` comes out of
      `new`; the others get there when a model declares its `$observers`
      field by hand. */
  datatype Value =
    | Instance(cls: ObserverClass)
    | Class(cls: ObserverClass)
    | Str(text: string)
    | Bool(flag: bool)
    | Null
    | Undefined

  /** `new observer()` with a zero-argument constructor. */
  function New(c: ObserverClass): (v: Value)
    ensures IsObject(v) && v.Instance? && v.cls == c
  {
    Instance(c)
  }

  function Instances(cs: seq<ObserverClass>): (vs: seq<Value>)
    ensures |vs| == |cs|
    ensures forall i :: 0 <= i < |cs| ==> vs[i] == New(cs[i])
  {
    seq(|cs|, i requires 0 <= i < |cs| => New(cs[i]))
  }

  /** The `typeof` operator. `typeof null` is "object". */
  function TypeOf(v: Value): string {
    match v
    case Instance(_) => "object"
    case Null => "object"
    case Class(_) => "function"
    case Str(_) => "string"
    case Bool(_) => "boolean"
    case Undefined => "undefined"
  }

  predicate IsObject(v: Value) {
    TypeOf(v) == "object"
  }

  /** Reading any property of `null` or `undefined` throws a TypeError. */
  predicate IsNullish(v: Value) {
    v.Null? || v.Undefined?
  }

  /** `typeof v[methodName] === 'function'`, for a value that is not nullish.
      Classes carry no static observer methods. */
  predicate HasMethod(v: Value, methodName: string) {
    v.Instance? && methodName in v.cls.methods
  }

  /** `${v}` for a value that is not a function; instances use the default
      `Object.prototype.toString`. */
  function Interpolate(v: Value): string
    requires !v.Class?
  {
    match v
    case Instance(_) => "[object Object]"
    case Str(t) => t
    case Bool(b) => if b then "true" else "false"
    case Null => "null"
    case Undefined => "undefined"
  }
}

=== FILE: observable.dfy ===
/** The `Observable` mixin: a model class's observer registry, `observe`,
    the hook callbacks it installs, `withoutObservers` and `saveQuietly`. */
module Observable {
  import opened Wrappers
  import opened Js
  import opened Hooks
  import opened Exceptions
  import opened Payloads
  import opened Transactions
  import opened Dispatch

  /** One model class composed with the mixin. `globals` is the list the
      base model shares with every model class; `locals` is the class's own
      `$observers`; `hooks` holds the slots a callback is installed on. */
  datatype Registry = Registry(
    model: string,
    globals: seq<Value>,
    locals: seq<Value>,
    isObserved: bool,
    hooks: set<Slot>)

  /** Hooks are only ever installed all at once, by an `observe` that got
      past the type check. */
  predicate Valid(s: Registry) {
    s.hooks == {} || (s.isObserved && s.hooks == AllSlots())
  }

  /** A model class as defined: not observed, no hooks, and its `$observers`
      field initialised to `declared`. */
  function Define(model: string, globals: seq<Value>, declared: seq<Value>): (s: Registry)
    ensures Valid(s) && !s.isObserved && s.model == model
    ensures GetObservers(s) == declared && s.globals == globals
    ensures GetAllObservers(s) == globals + declared
  {
    Registry(model, globals, declared, false, {})
  }

  /** `$addObserver(observer)`. */
  function AddObserver(s: Registry, c: ObserverClass): (r: Registry)
    ensures |r.locals| == |s.locals| + 1 && r.locals[..|s.locals|] == s.locals
    ensures r.locals[|s.locals|] == New(c)
    ensures r == s.(locals := r.locals)
  {
    s.(locals := s.locals + [New(c)])
  }

  /** `$addObservers(observers)`. */
  function AddObservers(s: Registry, cs: seq<ObserverClass>): (r: Registry)
    ensures |r.locals| == |s.locals| + |cs| && r.locals[..|s.locals|] == s.locals
    ensures r.locals[|s.locals|..] == Instances(cs)
    ensures r == s.(locals := r.locals)
  {
    s.(locals := s.locals + Instances(cs))
  }

  /** `$addObserver` applied to each class in turn. */
  function AddEach(s: Registry, cs: seq<ObserverClass>): Registry
    decreases |cs|
  {
    if |cs| == 0 then s else AddEach(AddObserver(s, cs[0]), cs[1..])
  }

  /** Adding a list of observers is adding them one by one, in order. */
  lemma AddObserversIsAddEach(s: Registry, cs: seq<ObserverClass>)
    ensures AddObservers(s, cs) == AddEach(s, cs)
  {
    AddEachAppends(s, cs);
  }

  lemma {:induction false} AddEachAppends(s: Registry, cs: seq<ObserverClass>)
    ensures AddEach(s, cs) == s.(locals := s.locals + Instances(cs))
    decreases |cs|
  {
    if |cs| > 0 {
      var next := s.(locals := s.locals + [New(cs[0])]);
      AddEachStep(s, cs);
      AddEachAppends(next, cs[1..]);
      InstancesAppend(s.locals, cs);
    } else {
      assert s.locals + Instances(cs) == s.locals;
    }
  }

  lemma AddEachStep(s: Registry, cs: seq<ObserverClass>)
    requires |cs| > 0
    ensures AddEach(s, cs) == AddEach(s.(locals := s.locals + [New(cs[0])]), cs[1..])
  {
  }

  lemma InstancesCons(cs: seq<ObserverClass>)
    requires |cs| > 0
    ensures Instances(cs) == [New(cs[0])] + Instances(cs[1..])
  {
  }

  lemma InstancesAppend(prefix: seq<Value>, cs: seq<ObserverClass>)
    requires |cs| > 0
    ensures (prefix + [New(cs[0])]) + Instances(cs[1..]) == prefix + Instances(cs)
  {
    InstancesCons(cs);
  }

  /** `$getObservers()`. */
  function GetObservers(s: Registry): seq<Value> {
    s.locals
  }

  /** `$getAllObservers()`: the globals, then the model's own observers. */
  function GetAllObservers(s: Registry): (all: seq<Value>)
    ensures |all| == |s.globals| + |s.locals|
    ensures all[..|s.globals|] == s.globals && all[|s.globals|..] == GetObservers(s)
  {
    s.globals + s.locals
  }

  /** The first value of `obs` that is not an object, if any. */
  function FirstNonObject(obs: seq<Value>): (r: Option<Value>)
    ensures r.None? <==> forall i :: 0 <= i < |obs| ==> IsObject(obs[i])
    ensures r.Some? ==> !IsObject(r.value)
    ensures r.Some? ==> exists i :: (0 <= i < |obs| && obs[i] == r.value
                                     && forall j :: 0 <= j < i ==> IsObject(obs[j]))
    decreases |obs|
  {
    if |obs| == 0 then None
    else if !IsObject(obs[0]) then Some(obs[0])
    else
      var rest := FirstNonObject(obs[1..]);
      assert forall i :: 0 < i < |obs| ==> obs[i] == obs[1..][i - 1];
      rest
  }

  /** `checkObserversTypes()`: throws for the first observer, globals
      first, whose `typeof` is not "object". */
  method CheckObserversTypes(s: Registry) returns (failure: Option<Failure>)
    ensures failure.None? <==> forall v <- GetAllObservers(s) :: IsObject(v)
    ensures failure.Some? ==> failure.value == Raised(WrongObserverType(FirstNonObject(GetAllObservers(s)).value, s.model))
  {
    var all := GetAllObservers(s);
    var i := 0;
    while i < |all|
      invariant 0 <= i <= |all|
      invariant forall j :: 0 <= j < i ==> IsObject(all[j])
      invariant FirstNonObject(all) == FirstNonObject(all[i..])
    {
      if !IsObject(all[i]) {
        assert all[i..][0] == all[i];
        return Some(Raised(WrongObserverType(all[i], s.model)));
      }
      assert all[i..][1..] == all[i + 1..];
      i := i + 1;
    }
    return None;
  }

  datatype Observed = Observed(state: Registry, failure: Option<Failure>)

  /** `observe(observers)`. The flag is set and the observers appended
      before the type check, so they stay when it throws; the hooks are
      installed only when it passes. */
  function Observe(s: Registry, observers: seq<ObserverClass>): (r: Observed)
    ensures s.isObserved ==> r == Observed(s, Some(Raised(ModelAlreadyObserved(s.model))))
    ensures !s.isObserved ==> r.state.isObserved && r.state.model == s.model
    ensures !s.isObserved ==> r.state.globals == s.globals && r.state.locals == s.locals + Instances(observers)
    ensures !s.isObserved ==> (r.failure.None? <==> forall v <- GetAllObservers(r.state) :: IsObject(v))
    ensures !s.isObserved && r.failure.Some? ==> r.state.hooks == s.hooks
    ensures !s.isObserved && r.failure.Some? ==>
      r.failure.value == Raised(WrongObserverType(FirstNonObject(GetAllObservers(r.state)).value, s.model))
    ensures !s.isObserved && r.failure.None? ==> r.state.hooks == s.hooks + AllSlots()
    ensures Valid(s) ==> Valid(r.state)
  {
    if s.isObserved then Observed(s, Some(Raised(ModelAlreadyObserved(s.model))))
    else
      var t := AddObservers(s.(isObserved := true), observers);
      match FirstNonObject(GetAllObservers(t))
      case Some(v) => Observed(t, Some(Raised(WrongObserverType(v, t.model))))
      case None => Observed(t.(hooks := t.hooks + AllSlots()), None)
  }

  /** A second `observe` always fails with the already-observed error
      naming the model, and leaves the first call's effects as they were. */
  lemma ObserveTwiceFails(s: Registry, first: seq<ObserverClass>, second: seq<ObserverClass>)
    ensures var once := Observe(s, first).state;
      && once.isObserved
      && Observe(once, second) == Observed(once, Some(Raised(ModelAlreadyObserved(s.model))))
  {
  }

  /** A model that declares a class, not an instance, in its `$observers`:
      `observe` throws the wrong-type error for it, the model stays flagged
      as observed, and no hook is installed. */
  lemma DeclaredClassFailsObserve(c: ObserverClass, model: string)
    ensures var r := Observe(Define(model, [], [Class(c)]), []);
      && r.failure == Some(Raised(WrongObserverType(Class(c), model)))
      && r.state.isObserved && r.state.hooks == {}
  {
    assert Instances([]) == [];
    assert GetAllObservers(Define(model, [], [Class(c)]).(isObserved := true)) == [Class(c)];
  }

  /** After a failed `observe` no hook ever fires an observer, and calling
      `observe` again only reports that the model is already observed. */
  lemma FailedObserveInstallsNothing(s: Registry, observers: seq<ObserverClass>)
    requires Valid(s) && !s.isObserved
    requires Observe(s, observers).failure.Some?
    ensures forall slot, arg | Fits(MethodName(slot), arg) :: Fire(Observe(s, observers).state, slot, arg) == Run([], None)
    ensures Observe(Observe(s, observers).state, observers).failure == Some(Raised(ModelAlreadyObserved(s.model)))
  {
  }

  /** A successful `observe` on a fresh model installs all fourteen hooks. */
  lemma ObserveInstallsAllHooks(s: Registry, observers: seq<ObserverClass>)
    requires Valid(s) && !s.isObserved
    requires Observe(s, observers).failure.None?
    ensures |Observe(s, observers).state.hooks| == 14
    ensures forall slot: Slot :: slot in Observe(s, observers).state.hooks
  {
    InstallOrderIsComplete();
  }

  lemma {:induction false} ImplementersDistribute(a: seq<Value>, b: seq<Value>, methodName: string)
    ensures Implementers(a + b, methodName) == Implementers(a, methodName) + Implementers(b, methodName)
    decreases |a|
  {
    if |a| > 0 {
      assert (a + b)[1..] == a[1..] + b;
      ImplementersDistribute(a[1..], b, methodName);
    } else {
      assert a + b == b;
    }
  }

  /** The loop of `registerHookCallback`: `await executeObserverMethod`
      on each observer of `all` in turn, stopping at the first failure. */
  method Walk(all: seq<Value>, methodName: string, arg: Payload) returns (r: Run)
    requires Fits(methodName, arg)
    ensures r == DispatchAll(all, methodName, arg)
  {
    var trace: seq<Effect> := [];
    var i := 0;
    while i < |all|
      invariant 0 <= i <= |all|
      invariant DispatchAll(all, methodName, arg) == Then(trace, DispatchAll(all[i..], methodName, arg))
    {
      var step := Execute(all[i], methodName, arg);
      DispatchStep(all, i, trace, methodName, arg);
      if step.failure.Some? {
        r := Run(trace + step.trace, step.failure);
        return;
      }
      trace := trace + step.trace;
      i := i + 1;
    }
    r := Run(trace, None);
  }

  /** `registerHookCallback(type, event, arg)`: every observer, globals
      first, gets `executeObserverMethod` for the slot's method. */
  method RegisterHookCallback(s: Registry, slot: Slot, arg: Payload) returns (r: Run)
    requires Fits(MethodName(slot), arg)
    ensures r == DispatchAll(GetAllObservers(s), MethodName(slot), arg)
    ensures r.failure.None? ==>
      Handled(r.trace) == Implementers(s.globals, MethodName(slot)) + Implementers(s.locals, MethodName(slot))
    ensures r.failure.None? ==>
      HandledCalls(r.trace)
      == CallsTo(Implementers(s.globals, MethodName(slot)) + Implementers(s.locals, MethodName(slot)), MethodName(slot), arg)
  {
    r := Walk(GetAllObservers(s), MethodName(slot), arg);
    if r.failure.None? {
      DispatchHandlesImplementers(GetAllObservers(s), MethodName(slot), arg);
      ImplementersDistribute(s.globals, s.locals, MethodName(slot));
    }
  }

  /** The persistence layer reaching `slot`: the callback `observe`
      installed there runs, if there is one. */
  function Fire(s: Registry, slot: Slot, arg: Payload): (r: Run)
    requires Fits(MethodName(slot), arg)
    ensures slot !in s.hooks ==> r == Run([], None)
    ensures slot in s.hooks ==> r == DispatchAll(GetAllObservers(s), MethodName(slot), arg)
    ensures slot in s.hooks && r.failure.None? ==>
      && Handled(r.trace) == Implementers(GetAllObservers(s), MethodName(slot))
      && HandledCalls(r.trace) == CallsTo(Implementers(GetAllObservers(s), MethodName(slot)), MethodName(slot), arg)
  {
    if slot !in s.hooks then Run([], None)
    else
      var r := DispatchAll(GetAllObservers(s), MethodName(slot), arg);
      if r.failure.Some? then r
      else
        DispatchHandlesImplementers(GetAllObservers(s), MethodName(slot), arg);
        r
  }

  /** An installed hook completes exactly when every observer's step, globals
      first, completes; otherwise it fails with the failure of the first
      observer whose step fails. */
  lemma FireFailsAtFirstFailure(s: Registry, slot: Slot, arg: Payload)
    requires Fits(MethodName(slot), arg) && slot in s.hooks
    ensures var all := GetAllObservers(s);
      Fire(s, slot, arg).failure.None?
      <==> forall i :: 0 <= i < |all| ==> Execute(all[i], MethodName(slot), arg).failure.None?
    ensures var all := GetAllObservers(s);
      Fire(s, slot, arg).failure.Some? ==>
        exists i :: 0 <= i < |all|
          && Fire(s, slot, arg).failure == Execute(all[i], MethodName(slot), arg).failure
          && forall j :: 0 <= j < i ==> Execute(all[j], MethodName(slot), arg).failure.None?
  {
    DispatchFailsAtFirstFailure(GetAllObservers(s), MethodName(slot), arg);
  }

  /** Before `observe`, no observer method ever runs. */
  lemma UnobservedRunsNothing(s: Registry, slot: Slot, arg: Payload)
    requires Valid(s) && !s.isObserved
    requires Fits(MethodName(slot), arg)
    ensures Fire(s, slot, arg) == Run([], None)
  {
  }

  /** Once observed, every slot dispatches to the implementers among all
      observers, globals first. */
  lemma ObservedDispatchesImplementers(s: Registry, observers: seq<ObserverClass>, slot: Slot, arg: Payload)
    requires Valid(s) && !s.isObserved
    requires Fits(MethodName(slot), arg)
    requires Observe(s, observers).failure.None?
    ensures var t := Observe(s, observers).state;
      var r := Fire(t, slot, arg);
      var implementers := Implementers(t.globals, MethodName(slot)) + Implementers(t.locals, MethodName(slot));
      r.failure.None? ==>
        && Handled(r.trace) == implementers
        && HandledCalls(r.trace) == CallsTo(implementers, MethodName(slot), arg)
  {
    var t := Observe(s, observers).state;
    InstallOrderIsComplete();
    assert slot in t.hooks;
    ImplementersDistribute(t.globals, t.locals, MethodName(slot));
  }

  /** Fires `slots` one after another, stopping at the first failure. */
  function FireAll(s: Registry, slots: seq<Slot>, arg: Payload): (r: Run)
    requires forall slot <- slots :: Fits(MethodName(slot), arg)
    ensures GetAllObservers(s) == [] ==> r == Run([], None)
    decreases |slots|
  {
    if |slots| == 0 then Run([], None)
    else
      var first := Fire(s, slots[0], arg);
      if first.failure.Some? then first
      else Then(first.trace, FireAll(s, slots[1..], arg))
  }

  /** Every slot a row-level operation fires takes the row itself. */
  lemma RowSlotFits(slot: Slot, row: Row)
    requires slot.kind in {Create, Update, Delete, Save}
    ensures Fits(MethodName(slot), Single(row))
  {
    MethodNames(slot);
  }

  /** The outcome of code run against the registry. */
  datatype Completion<T> = Completion(state: Registry, trace: seq<Effect>, outcome: Result<T, Failure>)

  /** Whether the host's `save()` sends a query: always for a new row, and
      for a persisted row only when it has dirty fields. */
  predicate Writes(persisted: bool, dirty: bool) {
    !persisted || dirty
  }

  /** The host model's `save()`: `beforeCreate` (or `beforeUpdate` for a
      persisted row) and `beforeSave`; then, unless a persisted row has no
      dirty fields, the query, `afterCreate` (or `afterUpdate`) and
      `afterSave`. `queryFails` stands for a rejected query. */
  function SaveRow(s: Registry, row: Row, persisted: bool, dirty: bool, queryFails: bool): (r: Completion<Row>)
    ensures r.state == s
    ensures GetAllObservers(s) == [] ==>
      r.trace == [] && (r.outcome.Success? <==> !(Writes(persisted, dirty) && queryFails))
  {
    var write := if persisted then Update else Create;
    var before := [Slot(Before, write), Slot(Before, Save)];
    var after := [Slot(After, write), Slot(After, Save)];
    RowSlotFits(before[0], row);
    RowSlotFits(before[1], row);
    RowSlotFits(after[0], row);
    RowSlotFits(after[1], row);
    var first := FireAll(s, before, Single(row));
    if first.failure.Some? then Completion(s, first.trace, Failure(first.failure.value))
    else if !Writes(persisted, dirty) then Completion(s, first.trace, Success(row))
    else if queryFails then Completion(s, first.trace, Failure(QueryFailed))
    else
      var second := FireAll(s, after, Single(row));
      Completion(s, first.trace + second.trace,
        if second.failure.Some? then Failure(second.failure.value) else Success(row))
  }

  /** The registry with both observer lists emptied. */
  function Cleared(s: Registry): (r: Registry)
    ensures GetAllObservers(r) == [] && r == s.(globals := [], locals := [])
  {
    s.(globals := [], locals := [])
  }

  /** `withoutObservers(callback)`, as written: the callback runs with both
      lists emptied; they are put back only when it returns. When it throws,
      the failure is re-raised wrapped and the lists stay as the callback
      left them. */
  function WithoutObservers<T>(s: Registry, callback: Registry -> Completion<T>): (r: Completion<T>)
    ensures r.trace == callback(Cleared(s)).trace
    ensures r.outcome.Success? <==> callback(Cleared(s)).outcome.Success?
    ensures r.outcome.Success? ==> r.outcome == callback(Cleared(s)).outcome
    ensures r.outcome.Success? ==>
      r.state == callback(Cleared(s)).state.(globals := s.globals, locals := s.locals)
    ensures r.outcome.Failure? ==> r.outcome.error == Wrapped(callback(Cleared(s)).outcome.error)
    ensures r.outcome.Failure? ==> r.state == callback(Cleared(s)).state
  {
    var done := callback(Cleared(s));
    match done.outcome
    case Failure(e) => Completion(done.state, done.trace, Failure(Wrapped(e)))
    case Success(v) => Completion(done.state.(globals := s.globals, locals := s.locals), done.trace, Success(v))
  }

  /** `withoutObservers` with the restoration in a `finally`: the lists are
      put back whatever the callback does. */
  function WithoutObserversGuarded<T>(s: Registry, callback: Registry -> Completion<T>): (r: Completion<T>)
    ensures r.trace == callback(Cleared(s)).trace
    ensures r.state.globals == s.globals && r.state.locals == s.locals
    ensures r.outcome.Success? <==> callback(Cleared(s)).outcome.Success?
  {
    var done := callback(Cleared(s));
    var restored := done.state.(globals := s.globals, locals := s.locals);
    match done.outcome
    case Failure(e) => Completion(restored, done.trace, Failure(Wrapped(e)))
    case Success(v) => Completion(restored, done.trace, Success(v))
  }

  /** `row.saveQuietly()`: a plain save inside `withoutObservers`. */
  function SaveQuietly(s: Registry, row: Row, persisted: bool, dirty: bool, queryFails: bool): (r: Completion<Row>)
    ensures r.trace == []
    ensures r.outcome.Success? <==> !(Writes(persisted, dirty) && queryFails)
    ensures r.outcome.Success? ==> r == Completion(s, [], Success(row))
    ensures r.outcome.Failure? ==> r.outcome.error == Wrapped(QueryFailed) && GetAllObservers(r.state) == []
    ensures r.outcome.Failure? ==> r.state == Cleared(s)
  {
    WithoutObservers(s, (st: Registry) => SaveRow(st, row, persisted, dirty, queryFails))
  }

  /** `saveQuietly` with the guarded `withoutObservers`. */
  function SaveQuietlyGuarded(s: Registry, row: Row, persisted: bool, dirty: bool, queryFails: bool): Completion<Row> {
    WithoutObserversGuarded(s, (st: Registry) => SaveRow(st, row, persisted, dirty, queryFails))
  }

  /** `saveQuietly` runs no observer method, global or local, and a save
      that goes through leaves the registry exactly as it was, so the next
      plain save triggers the observers again. */
  lemma SaveQuietlyIsSilent(s: Registry, row: Row, persisted: bool, dirty: bool, queryFails: bool)
    ensures SaveQuietly(s, row, persisted, dirty, queryFails).trace == []
    ensures !queryFails ==> SaveQuietly(s, row, persisted, dirty, queryFails) == Completion(s, [], Success(row))
  {
  }

  /** As written, a query that fails inside `saveQuietly` leaves the model
      with no observers at all: the failure is re-raised before the lists
      are restored. */
  lemma SaveQuietlyFailureDropsObservers(s: Registry, row: Row, persisted: bool, dirty: bool)
    requires Writes(persisted, dirty)
    ensures var r := SaveQuietly(s, row, persisted, dirty, true);
      && r.outcome == Failure(Wrapped(QueryFailed))
      && GetAllObservers(r.state) == []
      && r.state == s.(globals := [], locals := [])
  {
  }

  /** A concrete instance: one observer registered, a failed quiet save, and
      the observer is gone. */
  lemma SaveQuietlyFailureExample()
    ensures var c := ObserverClass("UserObserver", {"beforeSave"}, {}, false);
      var s := Observe(Define("User", [], []), [c]).state;
      && GetAllObservers(s) == [New(c)]
      && GetAllObservers(SaveQuietly(s, Row(1, None), false, false, true).state) == []
  {
    var c := ObserverClass("UserObserver", {"beforeSave"}, {}, false);
    var s := Observe(Define("User", [], []), [c]).state;
    assert GetAllObservers(s) == [New(c)];
    SaveQuietlyFailureDropsObservers(s, Row(1, None), false, false);
  }

  /** With the guarded version, a quiet save never runs an observer and
      always leaves both lists as they were, whether or not the query fails. */
  lemma SaveQuietlyGuardedRestores(s: Registry, row: Row, persisted: bool, dirty: bool, queryFails: bool)
    ensures var r := SaveQuietlyGuarded(s, row, persisted, dirty, queryFails);
      && r.trace == []
      && r.state == s
      && (r.outcome.Success? <==> !(Writes(persisted, dirty) && queryFails))
  {
  }
}

=== FILE: payloads.dfy ===
/** The argument each lifecycle hook receives, and how the transaction an
    after-commit observer waits for is found in it. */
module Payloads {
  import opened Wrappers
  import opened Js
  import opened Hooks
  import opened Exceptions

  /** A transaction client, known by an identifier. */
  type TrxId = nat

  /** The client a query builder runs on. */
  datatype Client = QueryClient | TransactionClient(trx: TrxId)

  /** A model query builder; `clientOptions.client` may be unset. */
  datatype Builder = Builder(client: Option<Client>)

  /** A model instance and its `$trx`. */
  datatype Row = Row(key: int, trx: Option<TrxId>)

  datatype Payload =
    | Query(builder: Builder)
    | Queries(countQuery: Builder, query: Builder)
    | Rows(rows: seq<Row>)
    | Paginator(page: seq<Row>)
    | Single(row: Row)

  /** The payload shape the persistence layer passes with each method:
      a builder for `beforeFind`/`beforeFetch`, the (count, page) pair for
      `beforePaginate`, the fetched rows for `afterFetch`, the paginator
      for `afterPaginate`, and one row otherwise. */
  predicate Fits(methodName: string, arg: Payload) {
    if methodName == "beforeFind" || methodName == "beforeFetch" then arg.Query?
    else if methodName == "beforePaginate" then arg.Queries?
    else if methodName == "afterFetch" then arg.Rows?
    else if methodName == "afterPaginate" then arg.Paginator?
    else arg.Single?
  }

  /** The same table written per slot. */
  predicate Shaped(slot: Slot, arg: Payload) {
    match slot
    case Slot(Before, Find) => arg.Query?
    case Slot(Before, Fetch) => arg.Query?
    case Slot(Before, Paginate) => arg.Queries?
    case Slot(After, Fetch) => arg.Rows?
    case Slot(After, Paginate) => arg.Paginator?
    case _ => arg.Single?
  }

  /** `getTransactionFromModelQueryBuilder`: the builder's client when that
      client is a transaction. */
  function FromBuilder(b: Builder): (r: Option<TrxId>)
    ensures r.Some? <==> b.client.Some? && b.client.value.TransactionClient?
    ensures r.Some? ==> r.value == b.client.value.trx
  {
    match b.client
    case Some(TransactionClient(t)) => Some(t)
    case _ => None
  }

  /** The transaction lookup of `executeObserverMethod`, branching on the
      method name. An empty `afterFetch` row list reads `$trx` of
      `undefined`. */
  function TransactionOf(methodName: string, arg: Payload): (r: Result<Option<TrxId>, Failure>)
    requires Fits(methodName, arg)
    ensures r.Failure? <==> methodName == "afterFetch" && |arg.rows| == 0
    ensures r.Failure? ==> r.error == PropertyOfNothing("$trx")
    ensures methodName == "afterPaginate" ==> r == Success(None)
  {
    if methodName == "beforeFind" || methodName == "beforeFetch" then
      Success(FromBuilder(arg.builder))
    else if methodName == "beforePaginate" then
      Success(FromBuilder(arg.countQuery))
    else if methodName == "afterFetch" then
      if |arg.rows| == 0 then Failure(PropertyOfNothing("$trx")) else Success(arg.rows[0].trx)
    else if methodName != "afterPaginate" then
      Success(arg.row.trx)
    else
      Success(None)
  }

  /** Where a transaction sits in each payload shape, read from the shape
      alone: a paginator never carries one. */
  function EmbeddedTransaction(arg: Payload): Result<Option<TrxId>, Failure> {
    match arg
    case Query(b) => Success(FromBuilder(b))
    case Queries(count, _) => Success(FromBuilder(count))
    case Rows(rs) => if |rs| == 0 then Failure(PropertyOfNothing("$trx")) else Success(rs[0].trx)
    case Paginator(_) => Success(None)
    case Single(r) => Success(r.trx)
  }

  /** The per-method table and the per-slot table agree. */
  lemma FitsIffShaped(slot: Slot, arg: Payload)
    ensures Fits(MethodName(slot), arg) <==> Shaped(slot, arg)
  {
    if slot.phase == Before {
      BeforeNames(slot.kind);
    } else {
      AfterNames(slot.kind);
    }
  }

  /** Branching on the method name finds the same transaction as reading
      the payload by its shape, for every slot's payload. */
  lemma TransactionOfFollowsShape(slot: Slot, arg: Payload)
    requires Fits(MethodName(slot), arg)
    ensures TransactionOf(MethodName(slot), arg) == EmbeddedTransaction(arg)
  {
    MethodNames(slot);
    FitsIffShaped(slot, arg);
  }
}

=== FILE: provider.dfy ===
/** The provider's global observer registry on the base model:
    `boot()` resets it and defines `$addGlobalObserver`,
    `$addGlobalObservers` and `$getGlobalObservers`. */
module Provider {
  import opened Js
  import opened Observable

  /** `boot()`: `BaseModel.$globalObservers = []`. */
  function Boot(s: Registry): (r: Registry)
    ensures GetGlobalObservers(r) == [] && GetAllObservers(r) == GetObservers(s)
    ensures r == s.(globals := r.globals)
  {
    s.(globals := [])
  }

  /** `$addGlobalObserver(observer)`. */
  function AddGlobalObserver(s: Registry, c: ObserverClass): (r: Registry)
    ensures |r.globals| == |s.globals| + 1 && r.globals[..|s.globals|] == s.globals
    ensures r.globals[|s.globals|] == New(c)
    ensures r == s.(globals := r.globals)
  {
    s.(globals := s.globals + [New(c)])
  }

  /** `$addGlobalObservers(observers)`. */
  function AddGlobalObservers(s: Registry, cs: seq<ObserverClass>): (r: Registry)
    ensures |r.globals| == |s.globals| + |cs| && r.globals[..|s.globals|] == s.globals
    ensures r.globals[|s.globals|..] == Instances(cs)
    ensures r == s.(globals := r.globals)
  {
    s.(globals := s.globals + Instances(cs))
  }

  /** `$getGlobalObservers()`. */
  function GetGlobalObservers(s: Registry): seq<Value> {
    s.globals
  }

  /** `$addGlobalObserver` applied to each class in turn. */
  function AddEachGlobal(s: Registry, cs: seq<ObserverClass>): Registry
    decreases |cs|
  {
    if |cs| == 0 then s else AddEachGlobal(AddGlobalObserver(s, cs[0]), cs[1..])
  }

  /** Adding a list of global observers is adding them one by one, in
      order. */
  lemma AddGlobalObserversIsAddEach(s: Registry, cs: seq<ObserverClass>)
    ensures AddGlobalObservers(s, cs) == AddEachGlobal(s, cs)
  {
    AddEachGlobalAppends(s, cs);
  }

  lemma {:induction false} AddEachGlobalAppends(s: Registry, cs: seq<ObserverClass>)
    ensures AddEachGlobal(s, cs) == s.(globals := s.globals + Instances(cs))
    decreases |cs|
  {
    if |cs| > 0 {
      var next := s.(globals := s.globals + [New(cs[0])]);
      AddEachGlobalStep(s, cs);
      AddEachGlobalAppends(next, cs[1..]);
      InstancesAppend(s.globals, cs);
    } else {
      assert s.globals + Instances(cs) == s.globals;
    }
  }

  lemma AddEachGlobalStep(s: Registry, cs: seq<ObserverClass>)
    requires |cs| > 0
    ensures AddEachGlobal(s, cs) == AddEachGlobal(s.(globals := s.globals + [New(cs[0])]), cs[1..])
  {
  }

  /** The global list does not see a model's own additions, and the
      model's list does not see global ones. */
  lemma ListsAreSeparate(s: Registry, c: ObserverClass, cs: seq<ObserverClass>)
    ensures GetGlobalObservers(AddObserver(s, c)) == GetGlobalObservers(s)
    ensures GetGlobalObservers(AddObservers(s, cs)) == GetGlobalObservers(s)
    ensures GetObservers(AddGlobalObserver(s, c)) == GetObservers(s)
    ensures GetObservers(AddGlobalObservers(s, cs)) == GetObservers(s)
  {
  }

  /** One registration call. */
  datatype Registration = Local(cls: ObserverClass) | Global(cls: ObserverClass)

  /** Applies registration calls in order. */
  function Register(s: Registry, script: seq<Registration>): Registry
    decreases |script|
  {
    if |script| == 0 then s
    else
      var next := match script[0]
        case Local(c) => AddObserver(s, c)
        case Global(c) => AddGlobalObserver(s, c);
      Register(next, script[1..])
  }

  /** The instances the global calls of a script create, in call order. */
  function GlobalsOf(script: seq<Registration>): seq<Value> {
    if |script| == 0 then []
    else (if script[0].Global? then [New(script[0].cls)] else []) + GlobalsOf(script[1..])
  }

  /** The instances the local calls of a script create, in call order. */
  function LocalsOf(script: seq<Registration>): seq<Value> {
    if |script| == 0 then []
    else (if script[0].Local? then [New(script[0].cls)] else []) + LocalsOf(script[1..])
  }

  /** After any interleaving of global and local registrations, the global
      list holds the global ones in call order, the model's list the local
      ones in call order, and all observers are the globals followed by the
      locals. */
  lemma RegistrationOrder(s: Registry, script: seq<Registration>)
    ensures GetGlobalObservers(Register(s, script)) == s.globals + GlobalsOf(script)
    ensures GetObservers(Register(s, script)) == s.locals + LocalsOf(script)
    ensures GetAllObservers(Register(s, script)) == s.globals + GlobalsOf(script) + s.locals + LocalsOf(script)
    ensures Register(s, script).isObserved == s.isObserved && Register(s, script).hooks == s.hooks
  {
    RegisterAppends(s, script);
    assert s.globals + GlobalsOf(script) + s.locals + LocalsOf(script)
        == (s.globals + GlobalsOf(script)) + (s.locals + LocalsOf(script));
  }

  /** `$getGlobalObservers()` after `boot()` and any interleaving of
      registrations: exactly the global registrations, in call order, and
      each is a fresh instance of the registered class. */
  lemma GlobalsAfterBoot(s: Registry, script: seq<Registration>)
    ensures GetGlobalObservers(Register(Boot(s), script)) == GlobalsOf(script)
    ensures forall i :: 0 <= i < |GlobalsOf(script)| ==> GlobalsOf(script)[i].Instance?
  {
    RegistrationOrder(Boot(s), script);
    GlobalsOfInstances(script);
  }

  lemma {:induction false} GlobalsOfInstances(script: seq<Registration>)
    ensures forall i :: 0 <= i < |GlobalsOf(script)| ==> GlobalsOf(script)[i].Instance?
    decreases |script|
  {
    if |script| > 0 {
      GlobalsOfInstances(script[1..]);
    }
  }

  lemma {:induction false} RegisterAppends(s: Registry, script: seq<Registration>)
    ensures Register(s, script) == s.(globals := s.globals + GlobalsOf(script), locals := s.locals + LocalsOf(script))
    decreases |script|
  {
    if |script| > 0 {
      var rest := script[1..];
      match script[0]
      case Local(c) =>
        var next := AddObserver(s, c);
        RegisterAppends(next, rest);
        assert LocalsOf(script) == [New(c)] + LocalsOf(rest);
        assert GlobalsOf(script) == GlobalsOf(rest);
        assert next.locals + LocalsOf(rest) == s.locals + LocalsOf(script);
      case Global(c) =>
        var next := AddGlobalObserver(s, c);
        RegisterAppends(next, rest);
        assert GlobalsOf(script) == [New(c)] + GlobalsOf(rest);
        assert LocalsOf(script) == LocalsOf(rest);
        assert next.globals + GlobalsOf(rest) == s.globals + GlobalsOf(script);
    } else {
      assert s.globals + GlobalsOf(script) == s.globals;
      assert s.locals + LocalsOf(script) == s.locals;
    }
  }

  /** After boot, a global observer and a model observing with one local
      observer: the model lists one observer of its own and two in all. */
  lemma BootThenObserve(s: Registry, g: ObserverClass, l: ObserverClass)
    requires !s.isObserved && s.locals == []
    ensures var t := Observe(AddGlobalObserver(Boot(s), g), [l]);
      && t.failure.None?
      && GetGlobalObservers(t.state) == [New(g)]
      && GetObservers(t.state) == [New(l)]
      && GetAllObservers(t.state) == [New(g), New(l)]
  {
    var t := Observe(AddGlobalObserver(Boot(s), g), [l]);
    assert Instances([l]) == [New(l)];
    assert GetAllObservers(t.state) == [New(g), New(l)];
  }
}

=== FILE: transactions.dfy ===
/** Observer calls, the `observer:<method>` notifications, the trace they
    leave, and the transaction a deferred call waits on. */
module Transactions {
  import opened Wrappers
  import opened Js
  import opened Exceptions
  import opened Payloads

  /** One observer method call: `observer[methodName](arg)`. */
  datatype Call = Call(observer: ObserverClass, methodName: string, arg: Payload)

  /** The event the mixin emits after a call: name `observer:<method>` and
      the fields `type`, `data`, `observer` and `isTransaction`. */
  datatype Notification = Notification(
    event: string,
    eventType: string,
    data: Payload,
    observer: string,
    isTransaction: bool)

  /** One entry of the log of what observers did. */
  datatype Effect =
    | Invoked(call: Call)
    | Emitted(notification: Notification)
    | Deferred(trx: TrxId, call: Call)

  /** What a run logged, and the failure that stopped it, if any. */
  datatype Run = Run(trace: seq<Effect>, failure: Option<Failure>)

  const EventPrefix: string := "observer:"

  /** `emit(event, data, observer, isTransaction)`. */
  function Emit(call: Call, isTransaction: bool): (n: Notification)
    ensures EventMethod(n.event) == Some(call.methodName)
    ensures n.eventType == call.methodName && n.data == call.arg
    ensures n.observer == call.observer.name && n.isTransaction == isTransaction
  {
    var event := EventPrefix + call.methodName;
    assert event[..|EventPrefix|] == EventPrefix && event[|EventPrefix|..] == call.methodName;
    Notification(event, call.methodName, call.arg, call.observer.name, isTransaction)
  }

  /** The method an event name announces, if it has the `observer:` form. */
  function EventMethod(event: string): Option<string> {
    if |event| >= |EventPrefix| && event[..|EventPrefix|] == EventPrefix
    then Some(event[|EventPrefix|..])
    else None
  }

  /** Distinct methods are announced under distinct event names. */
  lemma EventNameInjective(a: Call, b: Call, flagA: bool, flagB: bool)
    requires Emit(a, flagA).event == Emit(b, flagB).event
    ensures a.methodName == b.methodName
  {
    assert EventMethod(Emit(a, flagA).event) == Some(a.methodName);
  }

  /** `await observer[method](arg)` followed, when it returned, by the
      emission. */
  function Perform(call: Call, isTransaction: bool): (r: Run)
    ensures InvokedCalls(r.trace) == [call] && Handled(r.trace) == [call.observer]
    ensures HandledCalls(r.trace) == [call]
    ensures r.failure.Some? <==> call.methodName in call.observer.throwing
    ensures r.failure.None? ==> Paired(r.trace, isTransaction)
    ensures Emissions(r.trace) == if r.failure.None? then [Emit(call, isTransaction)] else []
    ensures Immediate(r.trace)
  {
    if call.methodName in call.observer.throwing then
      var trace := [Invoked(call)];
      assert trace[1..] == [];
      assert HandledCalls(trace) == [call] + HandledCalls(trace[1..]);
      Run(trace, Some(Thrown(call.observer.name, call.methodName)))
    else
      var tail := [Emitted(Emit(call, isTransaction))];
      var trace := [Invoked(call)] + tail;
      assert trace[1..] == tail && tail[1..] == [];
      assert tail[0].Emitted?;
      assert InvokedCalls(tail) == InvokedCalls(tail[1..]) == [];
      assert HandledCalls(tail) == HandledCalls(tail[1..]) == [];
      assert HandledCalls(trace) == [call] + HandledCalls(tail);
      assert Emissions(tail) == [Emit(call, isTransaction)];
      Run(trace, None)
  }

  /** A trace that defers nothing. */
  predicate Immediate(trace: seq<Effect>) {
    forall i :: 0 <= i < |trace| ==> !trace[i].Deferred?
  }

  lemma {:induction false} ImmediateDefersNothing(trace: seq<Effect>, id: TrxId)
    requires Immediate(trace)
    ensures DeferredTo(trace, id) == []
  {
    if |trace| > 0 {
      assert Immediate(trace[1..]) by {
        forall i | 0 <= i < |trace[1..]|
          ensures !trace[1..][i].Deferred?
        {
          assert trace[1..][i] == trace[i + 1];
        }
      }
      ImmediateDefersNothing(trace[1..], id);
    }
  }

  /** The calls a trace made or deferred, in order. */
  function HandledCalls(trace: seq<Effect>): seq<Call> {
    if |trace| == 0 then []
    else (if trace[0].Emitted? then [] else [trace[0].call]) + HandledCalls(trace[1..])
  }

  /** The observer of each call, in order. */
  function ObserversOf(calls: seq<Call>): (observers: seq<ObserverClass>)
    ensures |observers| == |calls|
    ensures forall i :: 0 <= i < |calls| ==> observers[i] == calls[i].observer
  {
    seq(|calls|, i requires 0 <= i < |calls| => calls[i].observer)
  }

  /** The observers a trace called or deferred, in order. */
  function Handled(trace: seq<Effect>): seq<ObserverClass> {
    ObserversOf(HandledCalls(trace))
  }

  /** Every call in `trace` is either deferred, or invoked and immediately
      followed by its own notification carrying `flag`. */
  predicate Paired(trace: seq<Effect>, flag: bool)
    decreases |trace|
  {
    if |trace| == 0 then true
    else if trace[0].Deferred? then Paired(trace[1..], flag)
    else |trace| >= 2 && trace[0].Invoked?
         && trace[1] == Emitted(Emit(trace[0].call, flag))
         && Paired(trace[2..], flag)
  }

  /** The calls a trace invoked, in order. */
  function InvokedCalls(trace: seq<Effect>): seq<Call> {
    if |trace| == 0 then []
    else (if trace[0].Invoked? then [trace[0].call] else []) + InvokedCalls(trace[1..])
  }

  /** The notifications a trace emitted, in order. */
  function Emissions(trace: seq<Effect>): seq<Notification> {
    if |trace| == 0 then []
    else (if trace[0].Emitted? then [trace[0].notification] else []) + Emissions(trace[1..])
  }

  /** The calls a trace deferred to transaction `id`, in order. */
  function DeferredTo(trace: seq<Effect>, id: TrxId): seq<Call> {
    if |trace| == 0 then []
    else (if trace[0].Deferred? && trace[0].trx == id then [trace[0].call] else []) + DeferredTo(trace[1..], id)
  }

  lemma {:induction false} ProjectionsDistribute(a: seq<Effect>, b: seq<Effect>, id: TrxId)
    ensures InvokedCalls(a + b) == InvokedCalls(a) + InvokedCalls(b)
    ensures Emissions(a + b) == Emissions(a) + Emissions(b)
    ensures DeferredTo(a + b, id) == DeferredTo(a, id) + DeferredTo(b, id)
  {
    if |a| > 0 {
      assert (a + b)[0] == a[0] && (a + b)[1..] == a[1..] + b;
      ProjectionsDistribute(a[1..], b, id);
      var i := if a[0].Invoked? then [a[0].call] else [];
      var e := if a[0].Emitted? then [a[0].notification] else [];
      var d := if a[0].Deferred? && a[0].trx == id then [a[0].call] else [];
      assert i + (InvokedCalls(a[1..]) + InvokedCalls(b)) == (i + InvokedCalls(a[1..])) + InvokedCalls(b);
      assert e + (Emissions(a[1..]) + Emissions(b)) == (e + Emissions(a[1..])) + Emissions(b);
      assert d + (DeferredTo(a[1..], id) + DeferredTo(b, id)) == (d + DeferredTo(a[1..], id)) + DeferredTo(b, id);
    } else {
      assert a + b == b;
    }
  }

  lemma HandledDistributes(a: seq<Effect>, b: seq<Effect>)
    ensures Handled(a + b) == Handled(a) + Handled(b)
    ensures HandledCalls(a + b) == HandledCalls(a) + HandledCalls(b)
  {
    HandledCallsDistribute(a, b);
    assert ObserversOf(HandledCalls(a) + HandledCalls(b))
        == ObserversOf(HandledCalls(a)) + ObserversOf(HandledCalls(b));
  }

  lemma {:induction false} HandledCallsDistribute(a: seq<Effect>, b: seq<Effect>)
    ensures HandledCalls(a + b) == HandledCalls(a) + HandledCalls(b)
  {
    if |a| > 0 {
      assert (a + b)[0] == a[0] && (a + b)[1..] == a[1..] + b;
      HandledCallsDistribute(a[1..], b);
      var c := if a[0].Emitted? then [] else [a[0].call];
      assert c + (HandledCalls(a[1..]) + HandledCalls(b)) == (c + HandledCalls(a[1..])) + HandledCalls(b);
    } else {
      assert a + b == b;
    }
  }

  lemma {:induction false} PairedConcat(a: seq<Effect>, b: seq<Effect>, flag: bool)
    requires Paired(a, flag) && Paired(b, flag)
    ensures Paired(a + b, flag)
    decreases |a|
  {
    if |a| > 0 {
      if a[0].Deferred? {
        assert (a + b)[1..] == a[1..] + b;
        PairedConcat(a[1..], b, flag);
      } else {
        assert (a + b)[2..] == a[2..] + b;
        PairedConcat(a[2..], b, flag);
      }
    } else {
      assert a + b == b;
    }
  }

  /** A transaction client and the callbacks registered to run after it
      commits, in registration order. */
  datatype Transaction = Transaction(id: TrxId, pending: seq<Call>)

  /** `trx.after('commit', callback)`. */
  function AfterCommit(t: Transaction, call: Call): (r: Transaction)
    ensures r.id == t.id && |r.pending| == |t.pending| + 1
    ensures r.pending[..|t.pending|] == t.pending && r.pending[|t.pending|] == call
  {
    Transaction(t.id, t.pending + [call])
  }

  /** Registers, in order, every call a trace deferred to `t`. */
  function Schedule(t: Transaction, trace: seq<Effect>): (r: Transaction)
    ensures r.id == t.id
    ensures r.pending == t.pending + DeferredTo(trace, t.id)
    decreases |trace|
  {
    if |trace| == 0 then t
    else
      var next := if trace[0].Deferred? && trace[0].trx == t.id then AfterCommit(t, trace[0].call) else t;
      Schedule(next, trace[1..])
  }

  /** Committing runs every registered callback in registration order: the
      method, then its emission flagged as transactional. A callback that
      throws skips its own emission but does not stop the others. */
  function Commit(t: Transaction): seq<Effect>
    decreases |t.pending|
  {
    if |t.pending| == 0 then []
    else Perform(t.pending[0], true).trace + Commit(Transaction(t.id, t.pending[1..]))
  }

  /** Rolling back drops every registered callback. */
  function Rollback(t: Transaction): (r: Transaction)
    ensures r.id == t.id && Commit(r) == []
  {
    Transaction(t.id, [])
  }

  /** How many of `calls` return instead of throwing. */
  function Returning(calls: seq<Call>): (n: nat)
    ensures n <= |calls|
  {
    if |calls| == 0 then 0
    else (if calls[0].methodName in calls[0].observer.throwing then 0 else 1) + Returning(calls[1..])
  }

  /** Commit invokes exactly the registered calls, in order; every
      notification it emits is flagged as transactional, one per call that
      returned; and it defers nothing. */
  lemma CommitRunsPendingInOrder(t: Transaction, id: TrxId)
    ensures InvokedCalls(Commit(t)) == t.pending
    ensures forall n <- Emissions(Commit(t)) :: n.isTransaction
    ensures |Emissions(Commit(t))| == Returning(t.pending)
    ensures DeferredTo(Commit(t), id) == []
    ensures Returning(t.pending) == |t.pending| ==> Paired(Commit(t), true)
  {
    CommitInvokesPending(t, id);
    CommitEmitsTransactional(t);
    if Returning(t.pending) == |t.pending| {
      CommitPairsCalls(t);
    }
  }

  lemma {:induction false} CommitInvokesPending(t: Transaction, id: TrxId)
    ensures InvokedCalls(Commit(t)) == t.pending
    ensures DeferredTo(Commit(t), id) == []
    decreases |t.pending|
  {
    if |t.pending| > 0 {
      var head := Perform(t.pending[0], true);
      var rest := Transaction(t.id, t.pending[1..]);
      CommitInvokesPending(rest, id);
      assert Commit(t) == head.trace + Commit(rest);
      assert t.pending == [t.pending[0]] + rest.pending;
      ProjectionsDistribute(head.trace, Commit(rest), id);
      ImmediateDefersNothing(head.trace, id);
    }
  }

  lemma {:induction false} CommitEmitsTransactional(t: Transaction)
    ensures forall n <- Emissions(Commit(t)) :: n.isTransaction
    ensures |Emissions(Commit(t))| == Returning(t.pending)
    decreases |t.pending|
  {
    if |t.pending| > 0 {
      var head := Perform(t.pending[0], true);
      var rest := Transaction(t.id, t.pending[1..]);
      CommitEmitsTransactional(rest);
      ProjectionsDistribute(head.trace, Commit(rest), t.id);
      assert Emissions(Commit(t)) == Emissions(head.trace) + Emissions(Commit(rest));
    }
  }

  lemma {:induction false} CommitPairsCalls(t: Transaction)
    requires Returning(t.pending) == |t.pending|
    ensures Paired(Commit(t), true)
    decreases |t.pending|
  {
    if |t.pending| > 0 {
      var head := Perform(t.pending[0], true);
      var rest := Transaction(t.id, t.pending[1..]);
      assert head.failure.None?;
      CommitPairsCalls(rest);
      PairedConcat(head.trace, Commit(rest), true);
    }
  }
}

=== FILE: wrappers.dfy ===
/** Optional values and outcomes that are either a value or an error. */
module Wrappers {

  datatype Option<+T> = None | Some(value: T)

  datatype Result<+T, +E> = Success(value: T) | Failure(error: E)
}
